=== FILE: README.md ===
# Lunch rating extension — verified model of its rating store

A browser extension adds like / neutral / dislike controls to each dish row
of the "rozvoz specialit" ordering page. It keeps one rating per dish name
in local storage under `lunchRatings`: 1 for liked, 0.5 for neutral and -1
for disliked. A missing key means unrated. The rating controls never write
an explicit 0; they delete the key instead. An imported file can still
bring in a 0 or any other value, which is stored as is. An options page
lists the liked and disliked dishes. There you can remove a dish, add one
by hand, or import a whole rating file. A background script forwards
`webhook` messages as HTTP POSTs to an endpoint the user configures.

This project models the rules that read and change that store, in Dafny:

- `Wrappers`: the `Option` type.
- `Dict`: a JavaScript object as an ordered dictionary (a sequence of
  `(name, value)` pairs with unique names, in insertion order). It covers
  reading a key, assigning one (an existing key keeps its position, a new
  one is appended), `delete`, and the `{...a, ...b}` spread. Insertion order
  is the order JavaScript uses for keys that are not array indices.
- `Text`: `String.prototype.trim` over the ECMAScript white-space set.
- `Store`: the stored value type (`Like | Neutral | Dislike | Other`). The
  `Storage` class holds the two stored objects, `lunchRatings` and
  `webhookSettings`.
- `Content`: the content script. A `Row` class models one table row (its
  name cell, its `raterInjected` marker, its appended control cells). The
  page scan (`InitRater`, one row at a time in `InjectRow`) and the click
  handler (`Click`) are methods. The toggle rule (`Toggle`, `ApplyClick`)
  and the view a rating should produce (`ViewFor`) are functions with
  lemmas.
- `Options`: the options page. The partition loop of `initOptions` is
  proved against `NamesWith`. `ListPane.Render` is `renderList`. The
  remove, add and import handlers are methods of `OptionsPage`.
- `LegacyOptions`: the older `options.js` at the repository root. It is a
  verbatim copy of the first 63 lines of `src/options.js`, so each of its
  operations runs the current page's code under the same contract.
- `Webhook`: the background script. It covers the send guard, the payload,
  the header merge, the logging of the outcome and the message
  acknowledgement.

The handlers are modelled as atomic steps. Storage is a `Storage` object
read and written whole. The current time, the network's answer and
`JSON.parse` are parameters.

Three facts about the code shape the model:

- The options page lists only liked and disliked dishes. Neutral dishes
  appear in neither list.
- Manual addition is offered only as liked or disliked.
- The content script never sends a `webhook` message. Clicks therefore
  notify nothing, and the message handler is modelled on its own.

## Model

| member | source | states |
|---|---|---|
| `Dict.Lookup` | src/content.js:68 | `obj[k]` is undefined exactly when no entry has key `k`, and otherwise is the value of an entry for `k` |
| `Dict.Assign` | src/content.js:70 | `obj[k] = v` overwrites the entry for `k` in place when it exists, appends `(k, v)` otherwise, and keeps keys unique |
| `Dict.AssignLookup` | src/options.js:76 | after assigning, `k` reads `v` and every other key reads exactly as before |
| `Dict.Delete` | src/options.js:53 | `delete obj[k]` keeps exactly the entries whose key is not `k`, and keeps keys unique |
| `Dict.DeleteLookup` | src/options.js:53 | after deleting, `k` is undefined and every other key reads exactly as before |
| `Dict.Merge` | src/background.js:23-26 | the spread `{...base, ...over}`: a key of `over` reads its value from `over`, any other key reads from `base`; `base`'s keys keep their leading positions |
| `Text.TrimStartSpec` | src/content.js:40 | dropping leading white space leaves a suffix that does not start with white space, and only white space was dropped |
| `Text.TrimEndSpec` | src/content.js:40 | dropping trailing white space leaves a prefix that does not end with white space, and only white space was dropped |
| `Text.TrimSpec` | src/content.js:40-41 | the trimmed name is empty iff the text is all white space, and otherwise neither starts nor ends with white space |
| `Text.TrimIdempotent` | src/options.js:73 | trimming a trimmed name changes nothing |
| `Content.ViewFor` | src/content.js:53-63 | at most one button is on; the rating the buttons show is the stored one (nothing for unrated or a value no button writes); the text class agrees with the buttons: bold with like, neutral with neutral, strike with dislike |
| `Content.Toggle` | src/content.js:69 | the new rating is 0 (cleared) iff the old one equals the button's value, and the button's value otherwise; this is the same rule as at lines 85 and 101 |
| `Content.ApplyClick` | src/content.js:67-71 | the store written back by a click is still an object: deleting or assigning the dish keeps keys unique |
| `Content.ApplyClickLookup` | src/content.js:67-71 | after a click the dish reads exactly the toggled value: deleted when 0, never an explicit 0 or a foreign value; every other dish reads as before |
| `Content.Clicks` | src/content.js:65-111 | the store stays an object through any run of clicks on one dish's buttons |
| `Content.ClicksKeepOthers` | src/content.js:65-111 | any run of clicks on one dish's buttons leaves every other dish's rating unchanged |
| `Content.ClicksThenOne` | src/content.js:65-111 | clicks happen one at a time: a run followed by one more click is that run, then that click's `ApplyClick` |
| `Content.LastClickDecides` | src/content.js:67-71 | after any non-empty run of clicks the dish holds the last-clicked button's value, or nothing if that button was already on |
| `Content.DoubleClickClears` | src/content.js:83-87 | clicking one button twice leaves the dish unrated, or back at that button's value if it started there |
| `Content.IneligibleRows` | src/content.js:37-41 | a row without a name cell, with an all-white-space name, or with a skip-listed trimmed name is not eligible; an eligible row's trimmed name is non-empty and starts with a non-space |
| `Content.InjectRow` | src/content.js:35-63 | a marked row, a row without a name cell, a row with an empty trimmed name, or a skip-listed row is left unmarked and unchanged; any other row is marked, remembers its trimmed name, and gets one control cell showing `ViewFor` of its stored rating |
| `Content.InitRater` | src/content.js:30-116 | one scan marks every eligible row, gives each newly marked row exactly one control cell showing the rating read at the start of the scan, and leaves already-marked and ineligible rows untouched, so a second scan changes nothing |
| `Content.Click` | src/content.js:65-111 | a click re-reads the store, stores `ApplyClick` of it (the button's value, or a deleted key when that value was already stored), and sets the row's classes to `ViewFor` of the new rating |
| `Options.NamesWith` | src/options.js:42-45 | every listed name is stored with the list's value, and every entry with that value is listed |
| `Options.ListedIff` | src/options.js:43-44 | a name is in the list for `v` iff the store holds `v` for it |
| `Options.NamesWithConcat` | src/options.js:42 | the lists follow the entries' iteration order: splitting the entries anywhere splits each list at the same place |
| `Options.ListsDisjoint` | src/options.js:42-45 | no name is both liked and disliked, and a neutral name is in neither list |
| `Options.ThreeDishes` | src/options.js:42-45 | for `{"Goulash": 1, "Soup": 0.5, "Pizza": -1}` the liked list is `["Goulash"]` and the disliked list `["Pizza"]` |
| `Options.Partition` | src/options.js:39-45 | the loop yields exactly the liked names and exactly the disliked names, in entry order |
| `Options.ListPane.Render` | src/options.js:12-35 | the empty message is shown iff there are no names; otherwise the list holds one item per name, in order, whose Remove button targets that name |
| `Options.OptionsPage.InitOptions` | src/options.js:37-49 | the liked pane lists the names stored as 1 and the disliked pane those stored as -1 |
| `Options.OptionsPage.RemoveFromLiked` | src/options.js:51-56 | the store loses only the given key, and the lists are re-rendered from it |
| `Options.OptionsPage.RemoveFromDisliked` | src/options.js:58-63 | the store loses only the given key, and the lists are re-rendered from it |
| `Options.OptionsPage.AddLiked` | src/options.js:72-80 | a blank input changes nothing; otherwise the trimmed name is set to 1, overwriting any earlier value, the input is cleared and the lists re-rendered |
| `Options.OptionsPage.AddDisliked` | src/options.js:82-90 | a blank input changes nothing; otherwise the trimmed name is set to -1, overwriting any earlier value, the input is cleared and the lists re-rendered |
| `Options.OptionsPage.Import` | src/options.js:109-124 | no file changes nothing; a parse failure raises the "Invalid JSON file" alert and leaves the store as it was; a successful parse replaces the store wholesale with the parsed map, re-renders and clears the input |
| `LegacyOptions.RenderList` | options.js:12-35 | the empty message is shown iff the list is empty; otherwise there is one item per name, in input order |
| `LegacyOptions.InitOptions` | options.js:37-49 | the liked list is exactly the names stored as 1 and the disliked list exactly those stored as -1 |
| `LegacyOptions.RemoveFromLiked` | options.js:51-56 | deletes only the given key |
| `LegacyOptions.RemoveFromDisliked` | options.js:58-63 | deletes only the given key |
| `Webhook.SettingsOf` | src/background.js:4-7 | absent settings read as `{}`: no URL, not enabled, no headers |
| `Webhook.Headers` | src/background.js:23-26 | `Content-Type: application/json` comes first; a user header of that name overrides its value; every other user header is carried unchanged |
| `Webhook.OneCustomHeader` | src/background.js:23-26 | user headers `{"X-A": "1"}` give `Content-Type: application/json` then `X-A: 1` |
| `Webhook.CallWebhook` | src/background.js:9-34 | a request is built iff the URL is non-empty and the settings are enabled (never for absent settings); it is a POST to that URL with `Headers` of the user headers and the payload `{lunchName, rating, timestamp, source: "rozvoz-specialit-rater"}`; a response or a failure is logged and nothing is raised |
| `Webhook.OnMessage` | src/background.js:37-42 | a `webhook` message is always answered `{success: true}`, whatever the delivery outcome, and performs exactly `callWebhook`'s effect: the guarded POST to the configured URL with the merged headers and a payload carrying the message's dish name and rating, and the logged outcome; any other message gets no answer and sends nothing |

## Left out

- DOM construction and querying are not modelled. This covers `makeButton` (the SVG fetch and `innerHTML`), the table and row traversal, and replacing the cell's text with a span. A row is an abstract record of its name-cell text, its marker and its control cells. The page's rows are given as a sequence.
- `chrome.storage.local` is not modelled as asynchronous. Each read and write is an access to the `Storage` object. Interleavings between handlers, `MutationObserver` re-entry and `DOMContentLoaded` wiring are concurrency and event plumbing, so each handler is one atomic step.
- `Content.InitRater`: the scan's asynchronous row callbacks are modelled as one loop. A click that lands while a scan is still building buttons could make that scan show a stale rating; the model does not capture this.
- `Content.Click`: classes on other rows that show the same dish are not updated. The source updates only the clicked row, and so does the model.
- Export is not modelled: the Blob, the object URL, the anchor click and `JSON.stringify`. So the export-then-import round trip is not stated.
- `Options.OptionsPage.Import`: `JSON.parse` is a parameter that returns a map or nothing, so the model does not capture well-formed JSON that is not an object of ratings. Reading the file's text is also left out.
- `fetch`, `console.log` and `new Date().toISOString()` are I/O and clock. The network's answer and the timestamp are parameters, and the console output is a returned `LogLine`.
- `Webhook.CallWebhook`: a failure of the settings read, or of `JSON.stringify`, is not modelled. Only the network failure (`Delivery.Failed`) is.
- `Webhook.Headers`: header names are compared exactly, as object keys are. `fetch` then joins names that differ only in case (`content-type` next to `Content-Type`), and the model does not capture that.
- `Webhook.CallWebhook`: the `rating` carried by a message is a `real`, not a JavaScript number. Message fields of other types are not modelled.
- `Dict.Assign`: always appends a new key at the end. JavaScript instead lists array-index keys ("0", "42", ...) first, in ascending numeric order, and only then the other keys in insertion order. For a dish named "42" added to `{"Goulash": 1}`, the source lists `["42", "Goulash"]` and the model lists `["Goulash", "42"]`. The list order that `Options.Partition` and `Options.NamesWithConcat` state is therefore the source's order only for names that are not array indices.
- `Dict.Merge`: "base's keys keep their leading positions" holds only when `over` has no array-index keys; JavaScript would move such keys in front of them.
- `Webhook.Headers`: `Content-Type` comes first only when no user header name is an array index. Header values and lookups are unaffected.
- `Content.InjectRow`: assumes `makeButton` succeeds. In the source the row is marked before the three icons are fetched. If a fetch fails or an icon has no `svg` element, the handler throws after the marker is set and the text span is already restyled. The row then stays marked with no control cell and is never retried. The model's `Row.Valid` ("a marked row has exactly one control cell") does not cover that outcome.
- `Content.InitRater`: for the same reason, the "exactly one control cell per newly marked row" it states holds only when every icon fetch succeeds.
- `Dict.Lookup`: models only an object's own properties. In JavaScript `obj[k]` also reads inherited names such as `toString`, `constructor` and `__proto__`, so "undefined exactly when no entry has key k" does not hold for them. For a dish with such a name the source reads a function or `Object.prototype`, which equals no rating; the toggle therefore gives the same result as for an unrated dish.
- `Dict.Assign`: in the source, `obj["__proto__"] = v` with a number `v` goes to the inherited `__proto__` setter, which ignores it, so nothing is stored. The model appends an entry `("__proto__", v)` instead.
- `Dict.AssignLookup`: for the key `__proto__` the source reads `Object.prototype` after the assignment, not the assigned value. The lemma holds in the source only for keys other than `__proto__`.
- `Content.Click`: its contract holds in the source only for dish names other than `__proto__`. For that name the source saves the store unchanged, so every like-click switches the button on again; the model stores the rating and the second click clears it.
- `Options.OptionsPage.AddLiked`: holds in the source only for names other than `__proto__`. For that name the source saves the store unchanged and the liked list never shows it; the model assigns Like and lists the name.
- `Options.OptionsPage.AddDisliked`: holds in the source only for names other than `__proto__`. For that name the source saves the store unchanged and the disliked list never shows it; the model assigns Dislike and lists the name.
- `Dict.Delete`: states which entries remain, not that they keep their relative order.
- `Store.Settings`: a non-string `url`, or an `enabled` that is truthy but not `true`, is folded into the string/boolean fields.

=== FILE: content.dfy ===
/** The content script: scans the offer tables, injects like / neutral /
    dislike controls into each eligible row once, and handles clicks on them. */
module Content {
  import opened Wrappers
  import opened Dict
  import opened Text
  import opened Store

  /** Placeholder rows (holiday, public holiday) that never get controls. */
  const SkipNames: set<string> := {"Dovolená", "Státní svátek"}

  /** The three controls of a row, each tied to the value it writes. */
  datatype Button = Up | Middle | Down

  function ValueOf(b: Button): Value
  {
    match b
    case Up => Like
    case Middle => Neutral
    case Down => Dislike
  }

  /** The classes of one control cell: `lunch-rater-on` on each of the three
      buttons, and `lunch-rater-bold` / `-neutral` / `-strike` on the text span. */
  datatype RowView = RowView(upOn: bool, neutralOn: bool, downOn: bool,
                             bold: bool, neutralText: bool, strike: bool)

  /** How many of the three buttons are switched on. */
  function OnCount(v: RowView): nat
  {
    (if v.upOn then 1 else 0) + (if v.neutralOn then 1 else 0) + (if v.downOn then 1 else 0)
  }

  /** The rating a view shows: the value of the first switched-on button. */
  function Shown(v: RowView): Option<Value>
  {
    if v.upOn then Some(Like)
    else if v.neutralOn then Some(Neutral)
    else if v.downOn then Some(Dislike)
    else None
  }

  /** The view of a row whose dish currently reads `current` (None: unrated).
      At most one button is on, it is the one for the stored value, and the
      text class agrees with the buttons; a value the buttons do not write
      shows as unrated. */
  function ViewFor(current: Option<Value>): (v: RowView)
    ensures OnCount(v) <= 1
    ensures Shown(v) == (if current == Some(Other) then None else current)
    ensures v.bold == v.upOn && v.neutralText == v.neutralOn && v.strike == v.downOn
  {
    match current
    case Some(Like) => RowView(true, false, false, true, false, false)
    case Some(Neutral) => RowView(false, true, false, false, true, false)
    case Some(Dislike) => RowView(false, false, true, false, false, true)
    case _ => RowView(false, false, false, false, false, false)
  }

  /** `was === v ? 0 : v`: the new rating after clicking `b` on a dish that
      read `was`; `None` is 0, which clears the rating. */
  function Toggle(was: Option<Value>, b: Button): (now: Option<Value>)
    ensures now == None <==> was == Some(ValueOf(b))
    ensures now != None ==> now == Some(ValueOf(b))
  {
    if was == Some(ValueOf(b)) then None else Some(ValueOf(b))
  }

  /** The store after a click on `b` for `dish`: the key is deleted when the
      new rating is 0 and assigned otherwise. */
  function ApplyClick(r: Ratings, dish: string, b: Button): (r': Ratings)
    requires Unique(r)
    ensures Unique(r')
  {
    var now := Toggle(Lookup(r, dish), b);
    if now == None then Delete(r, dish) else Assign(r, dish, now.value)
  }

  /** After a click the dish reads exactly the toggled value, so never an
      explicit 0 or a value no button writes, and every other dish reads as
      before. */
  lemma ApplyClickLookup(r: Ratings, dish: string, b: Button, other: string)
    requires Unique(r)
    ensures Lookup(ApplyClick(r, dish, b), dish) == Toggle(Lookup(r, dish), b)
    ensures Lookup(ApplyClick(r, dish, b), dish) != Some(Other)
    ensures other != dish ==> Lookup(ApplyClick(r, dish, b), other) == Lookup(r, other)
  {
    var now := Toggle(Lookup(r, dish), b);
    if now == None {
      DeleteLookup(r, dish, other);
    } else {
      AssignLookup(r, dish, now.value, other);
    }
  }

  /** A run of clicks on one dish's controls, earliest first. */
  function Clicks(r: Ratings, dish: string, bs: seq<Button>): (r': Ratings)
    requires Unique(r)
    ensures Unique(r')
    decreases |bs|
  {
    if bs == [] then r else Clicks(ApplyClick(r, dish, bs[0]), dish, bs[1..])
  }

  /** Any run of clicks on one dish leaves every other dish's rating alone. */
  lemma {:induction false} ClicksKeepOthers(r: Ratings, dish: string, bs: seq<Button>, other: string)
    requires Unique(r) && other != dish
    ensures Lookup(Clicks(r, dish, bs), other) == Lookup(r, other)
    decreases |bs|
  {
    if bs != [] {
      ApplyClickLookup(r, dish, bs[0], other);
      ClicksKeepOthers(ApplyClick(r, dish, bs[0]), dish, bs[1..], other);
    }
  }

  /** A run of clicks followed by one more is that run, then that click. */
  lemma {:induction false} ClicksThenOne(r: Ratings, dish: string, bs: seq<Button>, b: Button)
    requires Unique(r)
    ensures Clicks(r, dish, bs + [b]) == ApplyClick(Clicks(r, dish, bs), dish, b)
    decreases |bs|
  {
    if bs == [] {
      assert [b][1..] == [];
    } else {
      ClicksThenOne(ApplyClick(r, dish, bs[0]), dish, bs[1..], b);
      assert (bs + [b])[1..] == bs[1..] + [b];
    }
  }

  /** After any non-empty run of clicks the dish holds at most one rating: the
      value of the last button clicked, or none if that button was already on. */
  lemma LastClickDecides(r: Ratings, dish: string, bs: seq<Button>)
    requires Unique(r) && bs != []
    ensures Lookup(Clicks(r, dish, bs), dish) == Toggle(Lookup(Clicks(r, dish, bs[..|bs| - 1]), dish), bs[|bs| - 1])
  {
    var init, last := bs[..|bs| - 1], bs[|bs| - 1];
    ClicksThenOne(r, dish, init, last);
    assert init + [last] == bs;
    ApplyClickLookup(Clicks(r, dish, init), dish, last, dish);
  }

  /** Clicking the same button twice leaves the dish at the button's value
      if it started there, and unrated otherwise. */
  lemma DoubleClickClears(r: Ratings, dish: string, b: Button)
    requires Unique(r)
    ensures Lookup(ApplyClick(ApplyClick(r, dish, b), dish, b), dish) ==
            (if Lookup(r, dish) == Some(ValueOf(b)) then Some(ValueOf(b)) else None)
  {
    ApplyClickLookup(r, dish, b, dish);
    ApplyClickLookup(ApplyClick(r, dish, b), dish, b, dish);
  }

  /** Whether a row gets controls: it has a name cell whose trimmed text is
      neither empty nor a placeholder name. */
  predicate Eligible(nameCell: Option<string>)
  {
    nameCell.Some? && Trim(nameCell.value) != "" && Trim(nameCell.value) !in SkipNames
  }

  /** A row gets no controls when it has no name cell, when its name is blank
      (all white space), or when its trimmed name is a placeholder. */
  lemma IneligibleRows(text: string)
    ensures !Eligible(None)
    ensures (forall i :: 0 <= i < |text| ==> IsSpace(text[i])) ==> !Eligible(Some(text))
    ensures Trim(text) in SkipNames ==> !Eligible(Some(text))
    ensures Eligible(Some(text)) ==> Trim(text) != [] && !IsSpace(Trim(text)[0])
  {
    TrimSpec(text);
  }

  /** A table row of the offer page. */
  class Row {
    /** Text of the `td.nazevjidla` cell; `None` when the row has no such cell. */
    const nameCell: Option<string>
    /** `row.dataset.raterInjected`. */
    var injected: bool
    /** The trimmed dish name the row's handlers close over. */
    var dishName: string
    /** The control cells appended to the row. */
    var controlCells: seq<RowView>

    /** A row carries one control cell if it is marked and none otherwise, and
        only eligible rows are marked. */
    ghost predicate Valid()
      reads this
    {
      && |controlCells| == (if injected then 1 else 0)
      && (injected ==> Eligible(nameCell) && dishName == Trim(nameCell.value))
    }

    constructor (nameCell: Option<string>)
      ensures Valid() && this.nameCell == nameCell && !injected
    {
      this.nameCell := nameCell;
      injected := false;
      dishName := "";
      controlCells := [];
    }
  }

  /** One scan of the page (`initRater`).  Marked rows and ineligible rows are
      left as they are; every other row is marked and gets one control cell
      showing the rating read at the start of the scan.  Afterwards every
      eligible row is marked, so a second scan changes nothing. */
  method InitRater(store: Storage, rows: seq<Row>)
    requires forall row :: row in rows ==> row.Valid()
    modifies rows
    ensures forall row :: row in rows ==> row.Valid() && (row.injected || !Eligible(row.nameCell))
    ensures forall row :: row in rows && (old(row.injected) || !Eligible(row.nameCell)) ==> unchanged(row)
    ensures forall row :: row in rows && !old(row.injected) && Eligible(row.nameCell) ==>
      Shows(row, store.ratings)
  {
    var ratings := store.ratings;
    for i := 0 to |rows|
      invariant forall row :: row in rows ==> row.Valid()
      invariant forall j :: 0 <= j < i ==> rows[j].injected || !Eligible(rows[j].nameCell)
      invariant forall row :: row in rows ==>
        unchanged(row) || (!old(row.injected) && Eligible(row.nameCell) && Shows(row, ratings))
    {
      InjectRow(rows[i], ratings);
    }
  }


  /** The row is marked and its one control cell shows the stored rating. */
  ghost predicate Shows(row: Row, ratings: Ratings)
    reads row
  {
    && row.injected
    && row.nameCell.Some?
    && row.dishName == Trim(row.nameCell.value)
    && row.controlCells == [ViewFor(Lookup(ratings, row.dishName))]
  }

  /** The body of the scan for one row: the marker, name-cell, empty-name and
      skip-list checks, then marking the row and appending its control cell. */
  method InjectRow(row: Row, ratings: Ratings)
    requires row.Valid()
    modifies row
    ensures row.Valid() && (row.injected || !Eligible(row.nameCell))
    ensures old(row.injected) || !Eligible(row.nameCell) ==> unchanged(row)
    ensures !old(row.injected) && Eligible(row.nameCell) ==> Shows(row, ratings)
  {
    if row.injected { return; }
    if row.nameCell.None? { return; }
    var dishName := Trim(row.nameCell.value);
    if dishName == "" || dishName in SkipNames { return; }
    row.injected := true;
    row.dishName := dishName;
    var current := Lookup(ratings, dishName);
    var cell := RowView(current == Some(Like), current == Some(Neutral), current == Some(Dislike),
                        current == Some(Like), current == Some(Neutral), current == Some(Dislike));
    row.controlCells := row.controlCells + [cell];
  }

  /** A click on button `b` of a marked row: re-read the ratings, store the
      toggled value (deleting the key for 0), and set this row's classes. */
  method Click(store: Storage, row: Row, b: Button)
    requires store.Valid() && row.Valid() && row.injected
    modifies store`ratings, row`controlCells
    ensures store.Valid() && row.Valid()
    ensures store.ratings == ApplyClick(old(store.ratings), row.dishName, b)
    ensures row.controlCells == [ViewFor(Lookup(store.ratings, row.dishName))]
  {
    var latest := store.ratings;
    var was := Lookup(latest, row.dishName);
    var now := if was == Some(ValueOf(b)) then None else Some(ValueOf(b));
    if now == None {
      latest := Delete(latest, row.dishName);
    } else {
      latest := Assign(latest, row.dishName, now.value);
    }
    assert latest == ApplyClick(store.ratings, row.dishName, b);
    ApplyClickLookup(store.ratings, row.dishName, b, row.dishName);
    store.ratings := latest;

    var v := row.controlCells[0];
    match b {
      case Up =>
        v := v.(upOn := now == Some(Like), neutralOn := false, downOn := false,
                bold := now == Some(Like), neutralText := false, strike := false);
      case Middle =>
        v := v.(neutralOn := now == Some(Neutral), upOn := false, downOn := false,
                neutralText := now == Some(Neutral), bold := false, strike := false);
      case Down =>
        v := v.(downOn := now == Some(Dislike), upOn := false, neutralOn := false,
                strike := now == Some(Dislike), bold := false, neutralText := false);
    }
    row.controlCells := [v];
  }
}

=== FILE: dict.dfy ===
/** An ordered dictionary with string keys: the own enumerable properties of a
    plain JavaScript object, in insertion order.  Assigning to an existing key
    keeps its position, assigning to a new key appends it, and `delete` drops
    it.  This is the order `Object.entries` and object spread use for keys
    that are not array indices; JavaScript lists array-index keys ("0", "42",
    ...) first, in ascending numeric order, which this module does not model. */
module Dict {
  import opened Wrappers

  type Dict<V> = seq<(string, V)>

  /** No key occurs twice: an object has at most one property per name. */
  ghost predicate Unique<V>(d: Dict<V>)
  {
    forall i, j :: 0 <= i < j < |d| ==> d[i].0 != d[j].0
  }

  /** `obj[k]`: the value stored under `k`, or `None` for `undefined`. */
  function Lookup<V>(d: Dict<V>, k: string): (r: Option<V>)
    ensures r.None? <==> forall i :: 0 <= i < |d| ==> d[i].0 != k
    ensures r.Some? ==> (k, r.value) in d
  {
    if d == [] then None
    else if d[0].0 == k then Some(d[0].1)
    else Lookup(d[1..], k)
  }

  /** In an object, the entry that holds `k` is the one `Lookup` finds. */
  lemma {:induction false} LookupEntry<V>(d: Dict<V>, k: string, v: V)
    requires Unique(d) && (k, v) in d
    ensures Lookup(d, k) == Some(v)
  {
    if d[0].0 != k {
      assert (k, v) in d[1..];
      LookupEntry(d[1..], k, v);
    }
  }

  /** `obj[k] = v`: overwrites the entry for `k` in place, or appends one. */
  function Assign<V>(d: Dict<V>, k: string, v: V): (r: Dict<V>)
    requires Unique(d)
    ensures Unique(r)
    ensures Lookup(d, k).Some? ==>
      |r| == |d| && forall i :: 0 <= i < |d| ==> r[i] == (if d[i].0 == k then (k, v) else d[i])
    ensures Lookup(d, k).None? ==> r == d + [(k, v)]
  {
    if d == [] then [(k, v)]
    else if d[0].0 == k then [(k, v)] + d[1..]
    else [d[0]] + Assign(d[1..], k, v)
  }

  /** After `obj[k] = v`, reading `k` gives `v` and every other key reads as before. */
  lemma AssignLookup<V>(d: Dict<V>, k: string, v: V, other: string)
    requires Unique(d)
    ensures Lookup(Assign(d, k, v), k) == Some(v)
    ensures other != k ==> Lookup(Assign(d, k, v), other) == Lookup(d, other)
  {
    var r := Assign(d, k, v);
    assert (k, v) in r by {
      if Lookup(d, k).Some? {
        var i :| 0 <= i < |d| && d[i] == (k, Lookup(d, k).value);
        assert r[i] == (k, v);
      } else {
        assert r[|d|] == (k, v);
      }
    }
    LookupEntry(r, k, v);
    if other != k {
      match Lookup(d, other)
      case Some(w) =>
        var i :| 0 <= i < |d| && d[i] == (other, w);
        if Lookup(d, k).Some? {
          assert r[i] == d[i];
        } else {
          assert r[i] == d[i];
        }
        LookupEntry(r, other, w);
      case None =>
        forall i | 0 <= i < |r| ensures r[i].0 != other {
          if Lookup(d, k).Some? {
            assert r[i] == (if d[i].0 == k then (k, v) else d[i]);
          } else if i < |d| {
            assert r[i] == d[i];
          }
        }
    }
  }

  /** `delete obj[k]`: drops the entry for `k` and keeps every other entry. */
  function Delete<V>(d: Dict<V>, k: string): (r: Dict<V>)
    ensures forall i :: 0 <= i < |r| ==> r[i] in d && r[i].0 != k
    ensures forall i :: 0 <= i < |d| && d[i].0 != k ==> d[i] in r
    ensures Unique(d) ==> Unique(r)
  {
    if d == [] then []
    else if d[0].0 == k then Delete(d[1..], k)
    else [d[0]] + Delete(d[1..], k)
  }

  /** After `delete obj[k]`, `k` is undefined and every other key reads as before. */
  lemma DeleteLookup<V>(d: Dict<V>, k: string, other: string)
    requires Unique(d)
    ensures Lookup(Delete(d, k), k) == None
    ensures other != k ==> Lookup(Delete(d, k), other) == Lookup(d, other)
  {
    var r := Delete(d, k);
    if other != k {
      match Lookup(d, other)
      case Some(w) => LookupEntry(r, other, w);
      case None =>
    }
  }

  /** `{ ...base, ...over }`: the entries of `over`, in order, assigned onto `base`. */
  function Merge<V>(base: Dict<V>, over: Dict<V>): (r: Dict<V>)
    requires Unique(base) && Unique(over)
    ensures Unique(r)
    ensures forall k :: Lookup(r, k) == if Lookup(over, k).Some? then Lookup(over, k) else Lookup(base, k)
    ensures |base| <= |r| && forall i :: 0 <= i < |base| ==> r[i].0 == base[i].0
    decreases |over|
  {
    if over == [] then base
    else
      var next := Assign(base, over[0].0, over[0].1);
      var r := Merge(next, over[1..]);
      assert forall k :: Lookup(r, k) == if Lookup(over, k).Some? then Lookup(over, k) else Lookup(base, k) by {
        forall k ensures Lookup(r, k) == if Lookup(over, k).Some? then Lookup(over, k) else Lookup(base, k) {
          AssignLookup(base, over[0].0, over[0].1, k);
          if k == over[0].0 {
            assert forall i :: 0 <= i < |over[1..]| ==> over[1..][i].0 != k;
          } else {
            assert Lookup(over, k) == Lookup(over[1..], k);
          }
        }
      }
      r
  }
}

=== FILE: legacy_options.dfy ===
/** The older options script at the repository root.  Its first 63 lines are
    the same code as the current options script's (`renderList`,
    `initOptions`, `removeFromLiked`, `removeFromDisliked`); it has no add,
    export or import handlers and only renders the lists on load.  Each
    operation here is the current page's operation, with the same contract. */
module LegacyOptions {
  import opened Dict
  import opened Store
  import opened Options

  /** `renderList`: the message iff `names` is empty, else one item per name. */
  method RenderList(pane: ListPane, names: seq<string>)
    modifies pane
    ensures pane.Lists(names)
  {
    pane.Render(names);
  }

  /** `initOptions`: the liked list holds exactly the names stored as 1, the
      disliked list those stored as -1, each in entry order. */
  method InitOptions(store: Storage, page: OptionsPage)
    requires page.Valid()
    modifies page.liked, page.disliked
    ensures page.Shows(store.ratings)
  {
    page.InitOptions(store);
  }

  /** `removeFromLiked`: deletes only the given key, then re-renders. */
  method RemoveFromLiked(store: Storage, page: OptionsPage, name: string)
    requires page.Valid() && store.Valid()
    modifies store`ratings, page.liked, page.disliked
    ensures store.Valid()
    ensures store.ratings == Delete(old(store.ratings), name)
    ensures page.Shows(store.ratings)
  {
    page.RemoveFromLiked(store, name);
  }

  /** `removeFromDisliked`: deletes only the given key, then re-renders. */
  method RemoveFromDisliked(store: Storage, page: OptionsPage, name: string)
    requires page.Valid() && store.Valid()
    modifies store`ratings, page.liked, page.disliked
    ensures store.Valid()
    ensures store.ratings == Delete(old(store.ratings), name)
    ensures page.Shows(store.ratings)
  {
    page.RemoveFromDisliked(store, name);
  }
}

=== FILE: options.dfy ===
/** The options page: the liked and disliked lists, removal, manual addition
    and import of the rating map. */
module Options {
  import opened Wrappers
  import opened Dict
  import opened Text
  import opened Store

  /** The names whose stored value is `v`, in the order of the map's entries. */
  function NamesWith(r: Ratings, v: Value): (names: seq<string>)
    ensures |names| <= |r|
    ensures forall i :: 0 <= i < |names| ==> (names[i], v) in r
    ensures forall i :: 0 <= i < |r| && r[i].1 == v ==> r[i].0 in names
  {
    if r == [] then []
    else NamesWith(r[..|r| - 1], v) + (if r[|r| - 1].1 == v then [r[|r| - 1].0] else [])
  }

  /** A name is listed under `v` exactly when the map stores `v` for it. */
  lemma ListedIff(r: Ratings, v: Value, name: string)
    requires Unique(r)
    ensures name in NamesWith(r, v) <==> Lookup(r, name) == Some(v)
  {
    if name in NamesWith(r, v) {
      LookupEntry(r, name, v);
    }
  }

  /** The lists follow the entries: splitting the map anywhere splits each
      list at the same place. */
  lemma {:induction false} NamesWithConcat(r1: Ratings, r2: Ratings, v: Value)
    ensures NamesWith(r1 + r2, v) == NamesWith(r1, v) + NamesWith(r2, v)
    decreases |r2|
  {
    if r2 != [] {
      var init := r2[..|r2| - 1];
      assert (r1 + r2)[..|r1 + r2| - 1] == r1 + init;
      NamesWithConcat(r1, init, v);
    } else {
      assert r1 + r2 == r1;
    }
  }

  /** No name is both liked and disliked, and a neutral (or any other) name is
      in neither list. */
  lemma ListsDisjoint(r: Ratings, name: string)
    requires Unique(r)
    ensures !(name in NamesWith(r, Like) && name in NamesWith(r, Dislike))
    ensures Lookup(r, name) == Some(Neutral) ==> name !in NamesWith(r, Like) && name !in NamesWith(r, Dislike)
  {
    ListedIff(r, Like, name);
    ListedIff(r, Dislike, name);
  }

  /** A liked, a neutral and a disliked dish: each list holds its one name,
      and the neutral dish is in neither. */
  lemma ThreeDishes()
    ensures NamesWith([("Goulash", Like), ("Soup", Neutral), ("Pizza", Dislike)], Like) == ["Goulash"]
    ensures NamesWith([("Goulash", Like), ("Soup", Neutral), ("Pizza", Dislike)], Dislike) == ["Pizza"]
  {
  }

  /** The loop of `initOptions`: walks the entries once, pushing each name
      with value 1 onto `liked` and each name with value -1 onto `disliked`. */
  method Partition(ratings: Ratings) returns (liked: seq<string>, disliked: seq<string>)
    ensures liked == NamesWith(ratings, Like)
    ensures disliked == NamesWith(ratings, Dislike)
  {
    liked, disliked := [], [];
    for i := 0 to |ratings|
      invariant liked == NamesWith(ratings[..i], Like)
      invariant disliked == NamesWith(ratings[..i], Dislike)
    {
      assert ratings[..i + 1][..i] == ratings[..i];
      var (name, value) := ratings[i];
      if value == Like { liked := liked + [name]; }
      if value == Dislike { disliked := disliked + [name]; }
    }
    assert ratings[..|ratings|] == ratings;
  }

  /** A list entry: the name, with a Remove button that passes that name to
      the list's remove handler. */
  datatype ListItem = ListItem(caption: string, removes: string)

  /** A `<ul>` together with its "nothing here" message. */
  class ListPane {
    var items: seq<ListItem>
    var emptyShown: bool

    constructor ()
      ensures items == [] && emptyShown
    {
      items := [];
      emptyShown := true;
    }

    /** The pane shows `names`: the message iff there are none, and one item
        per name, in order. */
    ghost predicate Lists(names: seq<string>)
      reads this
    {
      && emptyShown == (names == [])
      && |items| == |names|
      && forall i :: 0 <= i < |names| ==> items[i] == ListItem(names[i], names[i])
    }

    /** `renderList`: clears the list, then either shows the message or
        hides it and appends one item per name. */
    method Render(names: seq<string>)
      modifies this
      ensures Lists(names)
    {
      items := [];
      if |names| == 0 {
        emptyShown := true;
        return;
      }
      emptyShown := false;
      for i := 0 to |names|
        invariant !emptyShown && |items| == i
        invariant forall j :: 0 <= j < i ==> items[j] == ListItem(names[j], names[j])
      {
        items := items + [ListItem(names[i], names[i])];
      }
    }
  }

  /** The options page with its two lists and input fields. */
  class OptionsPage {
    const liked: ListPane
    const disliked: ListPane
    /** `new-item-input`. */
    var newItem: string
    /** The text of the file chosen in `import-input`, if any. */
    var importFile: Option<string>
    /** Alerts shown to the user, oldest first. */
    var alerts: seq<string>

    ghost predicate Valid()
      reads this
    {
      liked != disliked
    }

    constructor ()
      ensures Valid() && fresh(liked) && fresh(disliked)
      ensures newItem == "" && importFile == None && alerts == []
    {
      liked := new ListPane();
      disliked := new ListPane();
      newItem := "";
      importFile := None;
      alerts := [];
    }

    /** The two lists show the liked and disliked names of `r`. */
    ghost predicate Shows(r: Ratings)
      reads this, liked, disliked
    {
      liked.Lists(NamesWith(r, Like)) && disliked.Lists(NamesWith(r, Dislike))
    }

    /** `initOptions`: partitions the stored map and renders both lists. */
    method InitOptions(store: Storage)
      requires Valid()
      modifies liked, disliked
      ensures Shows(store.ratings)
    {
      var likedNames, dislikedNames := Partition(store.ratings);
      liked.Render(likedNames);
      disliked.Render(dislikedNames);
    }

    /** `removeFromLiked`: deletes the name's key and re-renders. */
    method RemoveFromLiked(store: Storage, name: string)
      requires Valid() && store.Valid()
      modifies store`ratings, liked, disliked
      ensures store.Valid()
      ensures store.ratings == Delete(old(store.ratings), name)
      ensures Shows(store.ratings)
    {
      var ratings := store.ratings;
      ratings := Delete(ratings, name);
      store.ratings := ratings;
      InitOptions(store);
    }

    /** `removeFromDisliked`: the same deletion, wired to the disliked list. */
    method RemoveFromDisliked(store: Storage, name: string)
      requires Valid() && store.Valid()
      modifies store`ratings, liked, disliked
      ensures store.Valid()
      ensures store.ratings == Delete(old(store.ratings), name)
      ensures Shows(store.ratings)
    {
      var ratings := store.ratings;
      ratings := Delete(ratings, name);
      store.ratings := ratings;
      InitOptions(store);
    }

    /** The add-liked button: a blank input is ignored; otherwise the trimmed
        name is set to 1 (overwriting any earlier value), the input is
        cleared and the lists are re-rendered. */
    method AddLiked(store: Storage)
      requires Valid() && store.Valid()
      modifies store`ratings, this`newItem, liked, disliked
      ensures store.Valid()
      ensures Trim(old(newItem)) == "" ==>
        store.ratings == old(store.ratings) && newItem == old(newItem) && unchanged(liked, disliked)
      ensures Trim(old(newItem)) != "" ==>
        store.ratings == Assign(old(store.ratings), Trim(old(newItem)), Like) && newItem == "" && Shows(store.ratings)
    {
      var name := Trim(newItem);
      if name == "" { return; }
      var ratings := store.ratings;
      ratings := Assign(ratings, name, Like);
      store.ratings := ratings;
      newItem := "";
      InitOptions(store);
    }

    /** The add-disliked button: as add-liked, with -1. */
    method AddDisliked(store: Storage)
      requires Valid() && store.Valid()
      modifies store`ratings, this`newItem, liked, disliked
      ensures store.Valid()
      ensures Trim(old(newItem)) == "" ==>
        store.ratings == old(store.ratings) && newItem == old(newItem) && unchanged(liked, disliked)
      ensures Trim(old(newItem)) != "" ==>
        store.ratings == Assign(old(store.ratings), Trim(old(newItem)), Dislike) && newItem == "" && Shows(store.ratings)
    {
      var name := Trim(newItem);
      if name == "" { return; }
      var ratings := store.ratings;
      ratings := Assign(ratings, name, Dislike);
      store.ratings := ratings;
      newItem := "";
      InitOptions(store);
    }

    /** The import input's change handler.  `parse` is `JSON.parse`, with
        `None` for a syntax error.  No file: nothing happens.  A parse failure
        raises an alert and leaves the store alone.  Otherwise the parsed map
        replaces the stored one wholesale, the lists are re-rendered and the
        input is cleared. */
    method Import(store: Storage, parse: string -> Option<Ratings>)
      requires Valid() && store.Valid()
      requires forall text :: parse(text).Some? ==> Unique(parse(text).value)
      modifies store`ratings, this`importFile, this`alerts, liked, disliked
      ensures store.Valid()
      ensures old(importFile) == None ==>
        store.ratings == old(store.ratings) && alerts == old(alerts) && importFile == None && unchanged(liked, disliked)
      ensures old(importFile).Some? && parse(old(importFile).value) == None ==>
        && store.ratings == old(store.ratings)
        && alerts == old(alerts) + ["Invalid JSON file"]
        && importFile == old(importFile)
        && unchanged(liked, disliked)
      ensures old(importFile).Some? && parse(old(importFile).value).Some? ==>
        && store.ratings == parse(old(importFile).value).value
        && alerts == old(alerts)
        && importFile == None
        && Shows(store.ratings)
    {
      if importFile == None { return; }
      var text := importFile.value;
      var imported := parse(text);
      if imported == None {
        alerts := alerts + ["Invalid JSON file"];
        return;
      }
      store.ratings := imported.value;
      InitOptions(store);
      importFile := None;
    }
  }
}

=== FILE: store.dfy ===
/** The extension's local storage: the rating map under `lunchRatings` and the
    webhook configuration under `webhookSettings`, each read and written whole. */
module Store {
  import opened Wrappers
  import opened Dict

  /** A stored rating.  The rating controls only ever write 1 (`Like`), 0.5
      (`Neutral`) or -1 (`Dislike`); `Other` stands for any other value an
      imported file may have put there (0, a string, an object, ...). */
  datatype Value = Like | Neutral | Dislike | Other

  /** The `lunchRatings` object: dish name to rating, in insertion order.
      A missing key means "unrated" (0). */
  type Ratings = Dict<Value>

  /** The `webhookSettings` object as the background script reads it: a
      missing or empty `url` is the empty string, a missing or falsy `enabled`
      is `false`, missing `headers` are the empty object. */
  datatype Settings = Settings(url: string, enabled: bool, headers: Dict<string>)

  class Storage {
    /** `lunchRatings`; an absent key reads as `{}`. */
    var ratings: Ratings
    /** `webhookSettings`; `None` when the key is absent. */
    var webhookSettings: Option<Settings>

    /** Both stored values are JavaScript objects, so their keys are unique. */
    ghost predicate Valid()
      reads this
    {
      && Unique(ratings)
      && (webhookSettings.Some? ==> Unique(webhookSettings.value.headers))
    }

    constructor ()
      ensures Valid() && ratings == [] && webhookSettings == None
    {
      ratings := [];
      webhookSettings := None;
    }
  }
}

=== FILE: text.dfy ===
/** `String.prototype.trim`: strips the ECMAScript white-space and
    line-terminator characters from both ends of a string.  The functions
    carry no postconditions, so callers only see their definitions; what
    they guarantee is proved in the lemmas below. */
module Text {

  /** ECMAScript WhiteSpace and LineTerminator code points. */
  predicate IsSpace(c: char)
  {
    || c in {' ', '\t', '\n', '\r', '\U{000B}', '\U{000C}', '\U{00A0}', '\U{1680}',
             '\U{2028}', '\U{2029}', '\U{202F}', '\U{205F}', '\U{3000}', '\U{FEFF}'}
    || '\U{2000}' <= c <= '\U{200A}'
  }

  function TrimStart(s: string): string
  {
    if s != [] && IsSpace(s[0]) then TrimStart(s[1..]) else s
  }

  function TrimEnd(s: string): string
  {
    if s != [] && IsSpace(s[|s| - 1]) then TrimEnd(s[..|s| - 1]) else s
  }

  /** `s.trim()`. */
  function Trim(s: string): string
  {
    TrimEnd(TrimStart(s))
  }

  /** Dropping leading white space leaves a suffix of `s` that does not start
      with white space, and everything dropped was white space. */
  lemma {:induction false} TrimStartSpec(s: string)
    ensures |TrimStart(s)| <= |s| && TrimStart(s) == s[|s| - |TrimStart(s)|..]
    ensures forall i :: 0 <= i < |s| - |TrimStart(s)| ==> IsSpace(s[i])
    ensures TrimStart(s) == [] || !IsSpace(TrimStart(s)[0])
  {
    if s != [] && IsSpace(s[0]) {
      var t := s[1..];
      TrimStartSpec(t);
      var r := TrimStart(t);
      assert TrimStart(s) == r;
      assert t[|t| - |r|..] == s[|s| - |r|..];
      forall i | 0 <= i < |s| - |r| ensures IsSpace(s[i]) {
        if i > 0 { assert s[i] == t[i - 1]; }
      }
    }
  }

  /** Dropping trailing white space leaves a prefix of `s` that does not end
      with white space, and everything dropped was white space. */
  lemma {:induction false} TrimEndSpec(s: string)
    ensures |TrimEnd(s)| <= |s| && TrimEnd(s) == s[..|TrimEnd(s)|]
    ensures forall i :: |TrimEnd(s)| <= i < |s| ==> IsSpace(s[i])
    ensures TrimEnd(s) == [] || !IsSpace(TrimEnd(s)[|TrimEnd(s)| - 1])
  {
    if s != [] && IsSpace(s[|s| - 1]) {
      var t := s[..|s| - 1];
      TrimEndSpec(t);
      var r := TrimEnd(t);
      assert TrimEnd(s) == r;
      assert t[..|r|] == s[..|r|];
      forall i | |r| <= i < |s| ensures IsSpace(s[i]) {
        if i < |s| - 1 { assert s[i] == t[i]; }
      }
    }
  }

  /** The trimmed text is empty exactly when `s` is all white space, and
      otherwise neither starts nor ends with white space. */
  lemma TrimSpec(s: string)
    ensures |Trim(s)| <= |s|
    ensures Trim(s) == [] <==> forall i :: 0 <= i < |s| ==> IsSpace(s[i])
    ensures Trim(s) != [] ==> !IsSpace(Trim(s)[0]) && !IsSpace(Trim(s)[|Trim(s)| - 1])
  {
    var t := TrimStart(s);
    TrimStartSpec(s);
    TrimEndSpec(t);
    var r := TrimEnd(t);
    if r != [] {
      assert r[0] == t[0];
    }
  }

  /** Trimming an already trimmed name changes nothing. */
  lemma TrimIdempotent(s: string)
    ensures Trim(Trim(s)) == Trim(s)
  {
    TrimSpec(s);
    var r := Trim(s);
    assert TrimStart(r) == r;
    assert TrimEnd(r) == r;
  }
}

=== FILE: webhook.dfy ===
/** The background script: forwards rating messages to the user's webhook. */
module Webhook {
  import opened Wrappers
  import opened Dict
  import opened Store

  /** The fixed `source` field of every payload. */
  const Source: string := "rozvoz-specialit-rater"

  /** The default header that user headers are spread over. */
  const DefaultHeaders: Dict<string> := [("Content-Type", "application/json")]

  /** The JSON body of a webhook call; `timestamp` is the ISO-8601 time the
      call was made, supplied by the caller. */
  datatype Payload = Payload(lunchName: string, rating: real, timestamp: string, source: string)

  /** A `fetch` call. */
  datatype Request = Request(url: string, httpMethod: string, headers: Dict<string>, body: Payload)

  /** What the network did with a request: a response, or a thrown error. */
  datatype Delivery = Responded(status: int, statusText: string) | Failed

  /** What `callWebhook` writes to the console. */
  datatype LogLine = ResponseLogged(status: int, statusText: string) | FailureLogged

  /** A runtime message; only `kind == "webhook"` is handled. */
  datatype Message = Message(kind: string, dishName: string, rating: real)

  /** The `sendResponse` argument `{success: b}`. */
  datatype Reply = Reply(success: bool)

  /** `data.webhookSettings || {}`: absent settings read as the empty object. */
  function SettingsOf(stored: Option<Settings>): (s: Settings)
    ensures stored == None ==> s.url == "" && !s.enabled && s.headers == []
    ensures stored.Some? ==> s == stored.value
  {
    match stored
    case Some(settings) => settings
    case None => Settings("", false, [])
  }

  /** The guard `!settings.url || !settings.enabled`, negated. */
  predicate ShouldSend(s: Settings)
  {
    s.url != "" && s.enabled
  }

  /** The request headers: `Content-Type: application/json` with the user's
      headers spread over it.  The default comes first; a user header of the
      same name replaces its value; every other user header is kept as given. */
  function Headers(user: Dict<string>): (h: Dict<string>)
    requires Unique(user)
    ensures Unique(h)
    ensures |h| >= 1 && h[0].0 == "Content-Type"
    ensures Lookup(h, "Content-Type") ==
      if Lookup(user, "Content-Type").Some? then Lookup(user, "Content-Type") else Some("application/json")
    ensures forall k :: k != "Content-Type" ==> Lookup(h, k) == Lookup(user, k)
  {
    Merge(DefaultHeaders, user)
  }

  /** One custom header: it follows the default Content-Type. */
  lemma OneCustomHeader()
    ensures Headers([("X-A", "1")]) == [("Content-Type", "application/json"), ("X-A", "1")]
  {
  }

  /** `callWebhook(dishName, rating)`.  With a missing or empty URL, or not
      enabled (which includes absent settings), nothing is sent and nothing
      is logged.  Otherwise one POST goes to the configured URL carrying the
      dish name, the rating, the time and the fixed source, and its outcome is
      logged; a failed delivery is caught and logged, never raised. */
  method CallWebhook(store: Storage, dishName: string, rating: real, timestamp: string, delivery: Delivery)
    returns (sent: Option<Request>, log: Option<LogLine>)
    requires store.Valid()
    ensures sent.Some? <==> ShouldSend(SettingsOf(store.webhookSettings))
    ensures sent.Some? ==>
      && sent.value.url == SettingsOf(store.webhookSettings).url
      && sent.value.httpMethod == "POST"
      && sent.value.body == Payload(dishName, rating, timestamp, Source)
      && sent.value.headers == Headers(SettingsOf(store.webhookSettings).headers)
    ensures log.Some? <==> sent.Some?
    ensures delivery.Failed? && log.Some? ==> log == Some(FailureLogged)
    ensures delivery.Responded? && log.Some? ==> log == Some(ResponseLogged(delivery.status, delivery.statusText))
  {
    var settings := SettingsOf(store.webhookSettings);
    if settings.url == "" || !settings.enabled {
      return None, None;
    }
    var payload := Payload(dishName, rating, timestamp, Source);
    sent := Some(Request(settings.url, "POST", Headers(settings.headers), payload));
    match delivery {
      case Responded(status, statusText) => log := Some(ResponseLogged(status, statusText));
      case Failed => log := Some(FailureLogged);
    }
  }

  /** The `onMessage` listener.  A `webhook` message starts the call and is
      answered `{success: true}` at once, whatever the call's outcome; any
      other message gets no answer and sends nothing. */
  method OnMessage(store: Storage, msg: Message, timestamp: string, delivery: Delivery)
    returns (sent: Option<Request>, log: Option<LogLine>, reply: Option<Reply>)
    requires store.Valid()
    ensures reply == (if msg.kind == "webhook" then Some(Reply(true)) else None)
    ensures msg.kind != "webhook" ==> sent == None && log == None
    ensures msg.kind == "webhook" ==>
      && (sent.Some? <==> ShouldSend(SettingsOf(store.webhookSettings)))
      && (sent.Some? ==>
            && sent.value.url == SettingsOf(store.webhookSettings).url
            && sent.value.httpMethod == "POST"
            && sent.value.body == Payload(msg.dishName, msg.rating, timestamp, Source)
            && sent.value.headers == Headers(SettingsOf(store.webhookSettings).headers))
      && (log.Some? <==> sent.Some?)
      && (delivery.Failed? && log.Some? ==> log == Some(FailureLogged))
      && (delivery.Responded? && log.Some? ==> log == Some(ResponseLogged(delivery.status, delivery.statusText)))
  {
    sent, log, reply := None, None, None;
    if msg.kind == "webhook" {
      sent, log := CallWebhook(store, msg.dishName, msg.rating, timestamp, delivery);
      reply := Some(Reply(true));
    }
  }
}

=== FILE: wrappers.dfy ===
/** The optional value used throughout the model: a JavaScript lookup that can
    come back `undefined`, or a parse that can fail. */
module Wrappers {

  datatype Option<+T> = None | Some(value: T)
}
